=== FILE: README.md ===
# Backgammon rules layer — a Dafny model

This project models the rules layer of a Unity backgammon game: pawn
containers with a capacity, the field's room rule, the die's two-flag state
machine, the candidate-move generator, and the GameManager's turn state
machine. The values are immutable. The operations are pure functions,
except two methods that follow a source loop step by step
(`Containers.InitialFill` and `Moves.RemoveInvalid`):

- `Containers` (PawnsContainer.cs): a `Stack` is a list of pawn slots,
  bottom first, top last, plus `maxPawns`. A slot is `Option<Pawn>`, with
  `None` standing for a C# null, so that "the list never holds null" is a
  proved fact rather than an assumption.
- `Fields` (FieldController.cs): the overriding `IsRoomForPawn`, with C#'s
  precedence (`&&` before `||`) kept as written.
- `States` (the `GameState` enum of GameManager.cs) and `Pawns` (`PlayerColor`).
- `Dice` (DiceController.cs): `canRoll`, `finishedRolling` and the face
  index. The roll coroutine is a single step `FinishRoll(d, index)` with
  `index` in 0..5, supplied by the environment.
- `Board` (GameManager.cs lookups): fields are named by their index in
  FieldsOrder; `GetField`, `IsValidMove` and the board-level pawn move.
- `Moves` (PossibleMoves.cs): `Move`, the enumeration of step counts from two
  dice values, the validity filter, `IsMovePossible` and `Clear`.
- `GameManager` (GameManager.cs): a `Game` record with the state, the
  current player, the fields, the dice, FromField and the possible moves.
  It has the handlers as functions, an `Event` type for everything the scene
  can do, and lemmas over runs of events.

Behaviour kept exactly as the code has it:

- There is no capture and no bar. A single opposing pawn ("blot") only
  makes a field open; the arriving pawn is stacked on top of it.
- `Use` is an empty stub, so dice are never consumed. Every move of a turn
  is built from the same two dots.
- Equal dice give step counts `[a, a, 2a, a, a, 2a, 4a]`. Three times the
  value is never offered.
- No code leaves a `…Moves` state (`GameManager.MovesStateIsFinal`). The
  only transitions are Init to RedPlayerRolls and a rolling state to the
  same player's moving state.
- The room rule answers yes for a full field whose top pawn is the player's.
  A full field holding a single pawn also gets yes. `AddPawn` then refuses
  the pawn, which `MovePawn` has already removed from its source, so the
  pawn is on no field (`GameManager.ClickPawnCount`).
- A click moves the top pawn of FromField, whatever its colour.
- `ShowPossibleMoves` logs `InPawn.GetColor()` before it checks `InPawn`
  for null. `Logger.Log` is compiled only into DEBUG builds. The model
  takes a possibly null pawn, and a null pawn changes nothing.
- `ChangeState` derives White for every state outside the two Red states,
  Init included. The initial Red of a new game is kept until the first
  change (`GameManager.Wf`).

## Model

| member | source | states |
|---|---|---|
| Containers.IndexOf | Assets/Game/Scripts/PawnsContainer.cs:67 | List.IndexOf gives the first index holding the value (nothing before it holds it), or -1 exactly when the value is absent |
| Containers.IsEmpty | Assets/Game/Scripts/PawnsContainer.cs:175-178 | a container is empty exactly when its list has no slot at all |
| Containers.AddPawn | Assets/Game/Scripts/PawnsContainer.cs:61-96 | a null pawn or a full list leaves the container unchanged; below capacity on a null-free list the pawn is appended; the count never passes MaxPawns; no null is ever introduced |
| Containers.AddThenTop | Assets/Game/Scripts/PawnsContainer.cs:65-80 | adding below capacity makes the pawn the new top (GetPawn returns it), adds one to the count and keeps the earlier pawns in order |
| Containers.RemovePawn | Assets/Game/Scripts/PawnsContainer.cs:141-151 | exactly the first occurrence is removed, the rest keep their order, the multiset loses exactly that pawn; null or absent pawns change nothing |
| Containers.NoNullsForever | Assets/Game/Scripts/PawnsContainer.cs:63-72 | after any sequence of AddPawn/RemovePawn from a null-free list within capacity, the list stays null-free and within capacity, so the first-null-slot search always appends |
| Containers.BaseIsRoomForPawn | Assets/Game/Scripts/PawnsContainer.cs:110-113 | room means count below MaxPawns, whatever the colour asked about |
| Containers.HasRoomForPawn | Assets/Game/Scripts/PawnsContainer.cs:180-183 | always true |
| Containers.GetPawn | Assets/Game/Scripts/PawnsContainer.cs:115-123 | the last element, or null when empty; on a null-free list it is null exactly when empty |
| Containers.GetPawnOfColor | Assets/Game/Scripts/PawnsContainer.cs:125-139 | returns a pawn of the asked colour that lies above every other pawn of that colour, or null when no pawn of the colour is present |
| Containers.TopIndexOfColor | Assets/Game/Scripts/PawnsContainer.cs:129-135 | the top-down scan stops at the topmost index of the colour; every slot above it holds a pawn of the other colour |
| Containers.MoveGivenPawn | Assets/Game/Scripts/PawnsContainer.cs:195-199 | a null pawn changes nothing; a pawn of the source leaves it at its first occurrence, the others keeping their order; a destination below capacity gets the pawn appended, even one the source did not hold, and a full destination is unchanged; the two stacks together conserve their pawns below capacity and lose the pawn at capacity; both capacities are kept |
| Containers.MovePawn | Assets/Game/Scripts/PawnsContainer.cs:185-199 | an empty source changes nothing; otherwise the top pawn leaves the source and is appended to the destination, or vanishes when the destination is full; both capacities are kept |
| Containers.MovePawnOfColor | Assets/Game/Scripts/PawnsContainer.cs:190-199 | moves the topmost pawn of the colour: the source loses exactly that pawn, at its own position, the others keeping their order; a destination below capacity gains it on top, a full destination is unchanged; no such pawn changes nothing; both capacities are kept |
| Containers.MovePawnCount | Assets/Game/Scripts/PawnsContainer.cs:185-199 | the pawn total of source plus destination is conserved below capacity and drops by one at capacity |
| Containers.InitialFill | Assets/Game/Scripts/PawnsContainer.cs:37-51 | the initial fill yields min(InitialPawns, MaxPawns) distinct non-null pawns, all of InitialPawnsColor |
| Fields.IsRoomForPawn | Assets/Game/Scripts/FieldController.cs:34-37 | empty fields and single-pawn fields have room for either colour; a field topped by the player's colour has room even at capacity; two or more pawns topped by the other colour block |
| Fields.PrecedenceMatters | Assets/Game/Scripts/FieldController.cs:36 | the rule as parsed differs from the capacity-over-everything reading exactly at or over capacity with a same-colour top or a single pawn |
| Fields.FullOwnFieldReportsRoom | Assets/Game/Scripts/FieldController.cs:36 | a full field topped by the player's colour reports room although AddPawn leaves it unchanged |
| States.PlayerOf | Assets/Game/Scripts/GameManager.cs:142 | the derived player is Red exactly in RedPlayerRolls and RedPlayerMoves |
| Dice.InitialDie | Assets/Game/Scripts/DiceController.cs:22-24 | a new die cannot roll, has finished rolling and shows one dot |
| Dice.GetDots | Assets/Game/Scripts/DiceController.cs:118-121 | a well-formed die shows between 1 and 6 dots |
| Dice.Roll | Assets/Game/Scripts/DiceController.cs:72-84 | when allowed, a roll starts and both flags clear with the face untouched; otherwise nothing changes and no roll starts |
| Dice.FinishRoll | Assets/Game/Scripts/DiceController.cs:101-110 | the roll ends finished, showing index + 1 dots, with canRoll untouched |
| Dice.Reset | Assets/Game/Scripts/DiceController.cs:123-126 | rolling is allowed again; finished flag and face untouched |
| Dice.Use | Assets/Game/Scripts/DiceController.cs:86-89 | no effect on the die |
| Dice.OnStateChanged | Assets/Game/Scripts/DiceController.cs:59-64 | entering a rolling state resets the die; any other state leaves it unchanged |
| Dice.HasFinishedRolling | Assets/Game/Scripts/DiceController.cs:128-131 | reports exactly the finished flag |
| Dice.RollsBoundedByResets | Assets/Game/Scripts/DiceController.cs:74-78 | over any run of events, rolls started never exceed the resets plus the one roll allowed at the start |
| Dice.DotsStayInRange | Assets/Game/Scripts/DiceController.cs:109 | whatever happens to a die, its face stays in 1..6 |
| Board.GetField | Assets/Game/Scripts/GameManager.cs:30-38 | a field is returned exactly for indices 0..Count-1, null otherwise |
| Board.IsValidFieldIndex | Assets/Game/Scripts/GameManager.cs:231-234 | an index is valid exactly when it names an entry of FieldsOrder |
| Board.IsValidMove | Assets/Game/Scripts/GameManager.cs:224-229 | the end index is start plus dots for Red and start minus dots for White; valid exactly when it names a field with room for the player |
| Board.MoveTopPawn | Assets/Game/Scripts/GameManager.cs:131 | FromField.MovePawn(InField) on the board: the two fields change as MovePawn says, every other field is untouched, capacities and null-freedom kept |
| Moves.NewMove | Assets/Game/Scripts/PossibleMoves.cs:13-29 | the destination is start+steps for Red and start-steps for White; each field reference exists exactly when its index is on the board; without a GameManager nothing is resolved |
| Moves.IsValid | Assets/Game/Scripts/PossibleMoves.cs:31-34 | a valid move has both a start and a destination field |
| Moves.IsValidAgreesWithIsValidMove | Assets/Game/Scripts/PossibleMoves.cs:31-34 | a move from a start index is valid exactly when the start is a field and GameManager's IsValidMove accepts the same dots |
| Moves.Rounds | Assets/Game/Scripts/PossibleMoves.cs:77-86 | the step loop yields counter rounds of [a, b, a+b], so position i holds the (i mod 3)-th of a, b, a+b |
| Moves.CandidateSteps | Assets/Game/Scripts/PossibleMoves.cs:77-92 | different dice give [a, b, a+b]; equal dice give [a, a, 2a, a, a, 2a, 4a], never 3a |
| Moves.KeepValid | Assets/Game/Scripts/PossibleMoves.cs:97-107 | a move is kept exactly when it is among the candidates and valid |
| Moves.RemoveInvalid | Assets/Game/Scripts/PossibleMoves.cs:97-107 | the back-to-front in-place removal leaves exactly the valid candidates in their original order |
| Moves.PossibleMovesOf | Assets/Game/Scripts/PossibleMoves.cs:72-111 | no GameManager gives no moves; otherwise every retained move is a valid move from the start index by one of the candidate step counts |
| Moves.IsMovePossible | Assets/Game/Scripts/PossibleMoves.cs:123-134 | true exactly when some move's destination is the field |
| Moves.Clear | Assets/Game/Scripts/PossibleMoves.cs:113-121 | after clearing, no field can be moved to |
| Moves.MovePossibleIff | Assets/Game/Scripts/PossibleMoves.cs:72-134 | a field is a possible destination exactly when the start is on the board and the field is on the board, is reached by one candidate step count in the player's direction, and has room for the player |
| GameManager.InitialGame | Assets/Game/Scripts/GameManager.cs:24-27 | a new game is in Init with Red to play, no FromField and no possible moves, two fresh dice that cannot roll and show one dot, the StartGame coroutine pending, and satisfies the invariant |
| GameManager.ChangeState | Assets/Game/Scripts/GameManager.cs:137-148 | the new state is set, the player is Red exactly for the Red states, and each die gets its state-change handler; nothing else changes |
| GameManager.AllFinished | Assets/Game/Scripts/GameManager.cs:85-93 | the check loop, which breaks at the first die still rolling, answers yes exactly when every die has finished |
| GameManager.DiceRolled | Assets/Game/Scripts/GameManager.cs:83-110 | with every die finished, RedPlayerRolls becomes RedPlayerMoves and WhitePlayerRolls becomes WhitePlayerMoves; otherwise nothing changes; board and dice untouched |
| GameManager.StartGame | Assets/Game/Scripts/GameManager.cs:112-117 | the game enters RedPlayerRolls with Red to play; every die is reset and so allowed to roll, the dice count is kept; board, FromField and moves untouched |
| GameManager.RollDie | Assets/Game/Scripts/DiceController.cs:72-84 | only the chosen die is rolled; every other part of the game is untouched |
| GameManager.RollFinished | Assets/Game/Scripts/DiceController.cs:109-115 | the finished die shows index + 1 dots and the other dice are unchanged; the game then reacts through Dice_OnRolled: once every die has finished, a rolling state becomes the same player's moving state with the player derived from it, otherwise state and player are kept; board, FromField and moves untouched |
| GameManager.CanPlayerMove | Assets/Game/Scripts/GameManager.cs:188-196 | permission holds exactly for a non-null pawn of the current player while the state is that colour's moving state |
| GameManager.CanPlayerMoveIff | Assets/Game/Scripts/GameManager.cs:188-196 | in a reachable game a pawn may move exactly in its own colour's moving state |
| GameManager.ShowPossibleMoves | Assets/Game/Scripts/GameManager.cs:198-222 | a null pawn, a pawn without permission or without a field changes nothing; otherwise the rebuilt moves reach exactly the fields one candidate step from the pawn's field, using the two dice's current dots, with room; state, board and dice untouched |
| GameManager.FieldClicked | Assets/Game/Scripts/GameManager.cs:124-135 | in a moving state with a possible move to the field, the top pawn of FromField moves there and the moves are cleared; any other click changes nothing; state and dice untouched |
| GameManager.ClickMovesTopPawn | Assets/Game/Scripts/GameManager.cs:124-135 | the click moves FromField's top pawn whatever its colour, changes no other field, and clears the moves |
| GameManager.ClickPawnCount | Assets/Game/Scripts/GameManager.cs:131 | a click conserves the pawns of the two fields below capacity and loses one at capacity |
| GameManager.StepKeepsWf | Assets/Game/Scripts/GameManager.cs:97-116 | every event keeps the invariant, and the only state changes are Init to RedPlayerRolls and a rolling state to the same player's moving state |
| GameManager.MovesStateIsFinal | Assets/Game/Scripts/GameManager.cs:124-148 | from a moving state, no run of events ever changes the state |
| GameManager.MovesReuseDice | Assets/Game/Scripts/GameManager.cs:198-222 | pawn and field clicks leave the dice unchanged, so later moves reuse the same dots |

## Left out

- Unity plumbing: `Start` wiring of events, `Instantiate`, transforms, parenting, sprite ordering. The highlight toggles (`Highlight`/`Reset` on fields, `Show`/`Hide` on moves) are left out too. They are presentation with no decision logic.
- `Rearrange`, `GetSpacing` and BackgroundResizer.cs: floating-point screen layout.
- Coroutines, `WaitForSeconds` and `Random`. A roll is `Dice.Roll` followed, at any later time, by one `FinishRoll` with a face index in 0..5 chosen by the environment. The model does not track how many roll coroutines are in flight. It therefore allows a finish step without a pending roll, which over-approximates the scheduler. The 3-second delay before `StartGame` is one `GameStarted` event.
- C# events: the dice's state-change handler runs inside `ChangeState`. The game's roll handler runs inside `RollFinished`. Every die is taken as subscribed.
- Input handlers: DicesController.cs and PawnController.cs `OnMouseDown` are replaced by the `DieClicked` and `PawnClicked` events. One click on the dice controller rolls every die, so it is one `DieClicked` per die, in a row.
- `PawnClicked` carries the pawn's field as an index into FieldsOrder. This replaces the pawn's `Field` reference, since `PawnController` is not part of this model. The event takes any pawn and any field index independently, so it over-approximates the pairs a pawn and its `Field` reference can form.
- Logger.cs, the editor menu items, the `Find` scene lookup and the scene-configuration tests. The counts that `Start` checks (24 fields, 2 dice) are part of the invariant `GameManager.Wf`.
- `GameManager.Wf` also assumes every field's list is null-free and every field has MaxPawns > 0. `Start` does not check either. MaxPawns may be 0 by its range attribute, and then the room rule dereferences null on an empty field.
- FieldsOrder is taken to hold 24 distinct fields, so a field is named by its index.
- `GetGameState`, `GetCurrentPlayerColor`, `GetPlayerTurn`, `GetSteps`, `GetDestination`: plain getters, read as record fields.
- `GetPawnTemplateObject` picks the prefab for a colour. Prefabs and `Instantiate` are not modelled.
- Containers.InitialFill: assumes each pawn instantiated from the colour's prefab has InitialPawnsColor and is non-null. Only the editor tests check the prefabs' colours.
- The `AddPawn(GameObject)` overload only unwraps the component and forwards to `AddPawn`.
- Fields.IsRoomForPawn: requires RoomDefined. An empty field with MaxPawns <= 0, or a null top slot, makes the C# rule dereference null.
- Containers.GetPawnOfColor: requires every slot the top-down scan reads to be non-null, since the C# loop dereferences each one.
- Containers.MovePawn: the ensures about the source assume no pawn appears twice in it. Otherwise `IndexOf` would remove an earlier copy of the top pawn.
- Containers.MoveGivenPawn: the multiset clauses assume a null-free destination. On a list with a null slot, `AddPawn` overwrites that slot instead of appending.
- GameManager.ShowPossibleMoves: models the build without DEBUG, where a null pawn reaches the null check and changes nothing. In a DEBUG build the log call throws on a null pawn before any assignment, so the game is unchanged there too.

=== FILE: board.dfy ===
/** The board lookups of GameManager.cs: FieldsOrder is a sequence of field
    containers, and a field is named by its index in that sequence. */
module Board {
  import opened Wrappers
  import opened Pawns
  import opened Containers
  import opened Fields

  /** IsValidFieldIndex: the index names an entry of FieldsOrder. */
  function IsValidFieldIndex(fields: seq<Stack>, i: int): (r: bool)
    ensures r <==> 0 <= i < |fields|
  {
    0 <= i < |fields|
  }

  /** GetField: the field at an index, or null for an index out of range. */
  function GetField(fields: seq<Stack>, i: int): (r: Option<nat>)
    ensures r.Some? <==> 0 <= i < |fields|
    ensures r.Some? ==> r.value == i
  {
    if IsValidFieldIndex(fields, i) then Some(i) else None
  }

  /** Every field can answer IsRoomForPawn without a null dereference. */
  predicate AllRoomDefined(fields: seq<Stack>)
  {
    forall i :: 0 <= i < |fields| ==> RoomDefined(fields[i])
  }

  /** The field index reached from `start` by `steps`: Red travels up the
      indices, White down. */
  function Target(player: PlayerColor, start: int, steps: int): int
  {
    start + (if player == Red then steps else -steps)
  }

  /** IsValidMove: the end index (its out parameter) and whether it names a
      field with room for the player. */
  function IsValidMove(fields: seq<Stack>, player: PlayerColor, start: int, dots: int): (r: (bool, int))
    requires AllRoomDefined(fields)
    ensures player == Red ==> r.1 == start + dots
    ensures player == White ==> r.1 == start - dots
    ensures r.0 <==> 0 <= r.1 < |fields| && IsRoomForPawn(fields[r.1], player)
  {
    var endIndex := Target(player, start, dots);
    (IsValidFieldIndex(fields, endIndex) && IsRoomForPawn(fields[endIndex], player), endIndex)
  }

  /** FromField.MovePawn(InField) on the board: the top pawn of field `from`
      is removed there and then added to field `to`. When both name the same
      field the second step sees the first step's result. */
  function MoveTopPawn(fields: seq<Stack>, from: int, to: int): (r: seq<Stack>)
    requires 0 <= from < |fields| && 0 <= to < |fields|
    ensures |r| == |fields|
    ensures forall i :: 0 <= i < |fields| && i != from && i != to ==> r[i] == fields[i]
    ensures from != to ==> (r[from], r[to]) == MovePawn(fields[from], fields[to])
    ensures forall i :: 0 <= i < |fields| ==> r[i].maxPawns == fields[i].maxPawns
    ensures forall i :: 0 <= i < |fields| && NoNulls(fields[i].slots) ==> NoNulls(r[i].slots)
  {
    var mover := GetPawn(fields[from]);
    var removed := fields[from := RemovePawn(fields[from], mover)];
    removed[to := AddPawn(removed[to], mover)]
  }
}

=== FILE: containers.dfy ===
/** Pawn containers (PawnsContainer.cs): an ordered list of pawns with a
    capacity. The last element of the list is the top of the stack, the pawn
    that gets moved. Transforms, sprite ordering and Rearrange are left out. */
module Containers {
  import opened Wrappers
  import opened Pawns

  /** A container: its pawn slots, bottom first and top last, and its
      capacity MaxPawns. A slot is None where the C# list would hold null. */
  datatype Stack = Stack(slots: seq<Option<Pawn>>, maxPawns: int)

  /** No slot of the list is null. */
  predicate NoNulls(s: seq<Option<Pawn>>)
  {
    forall i :: 0 <= i < |s| ==> s[i].Some?
  }

  /** No pawn object appears twice in the list. */
  predicate Distinct(s: seq<Option<Pawn>>)
  {
    forall i, j :: 0 <= i < j < |s| ==> s[i] != s[j]
  }

  /** List.IndexOf: the first index holding `x`, or -1 when there is none. */
  function IndexOf<T(==)>(s: seq<T>, x: T): (k: int)
    ensures -1 <= k < |s|
    ensures k == -1 <==> x !in s
    ensures 0 <= k ==> s[k] == x && x !in s[..k]
  {
    if |s| == 0 then -1
    else if s[0] == x then 0
    else
      var k := IndexOf(s[1..], x);
      if k == -1 then -1
      else
        assert s[..k + 1] == [s[0]] + s[1..][..k];
        k + 1
  }

  /** IsEmpty: the container holds no slot at all. */
  function IsEmpty(c: Stack): (r: bool)
    ensures r <==> c.slots == []
  {
    |c.slots| == 0
  }

  /** AddPawn: a non-null pawn goes into the first null slot, or is appended
      when there is none, provided the list is below capacity. A null pawn,
      or a full list, leaves the container unchanged. */
  function AddPawn(c: Stack, p: Option<Pawn>): (r: Stack)
    ensures r.maxPawns == c.maxPawns
    ensures p.None? || |c.slots| >= c.maxPawns ==> r == c
    ensures p.Some? && |c.slots| < c.maxPawns && NoNulls(c.slots) ==> r.slots == c.slots + [p]
    ensures |r.slots| <= c.maxPawns || r == c
    ensures NoNulls(c.slots) ==> NoNulls(r.slots)
  {
    if p.None? then c
    else if |c.slots| < c.maxPawns then
      var firstEmpty := IndexOf(c.slots, None);
      if firstEmpty == -1 then c.(slots := c.slots + [p])
      else c.(slots := c.slots[firstEmpty := p])
    else c
  }

  /** RemovePawn: removes the first occurrence of a non-null pawn; a null or
      absent pawn leaves the container unchanged. */
  function RemovePawn(c: Stack, p: Option<Pawn>): (r: Stack)
    ensures r.maxPawns == c.maxPawns
    ensures p.None? || p !in c.slots ==> r == c
    ensures p.Some? && p in c.slots ==>
              exists k :: 0 <= k < |c.slots| && c.slots[k] == p && p !in c.slots[..k]
                          && r.slots == c.slots[..k] + c.slots[k + 1..]
    ensures p.Some? && p in c.slots ==> multiset(r.slots) == multiset(c.slots) - multiset{p}
    ensures NoNulls(c.slots) ==> NoNulls(r.slots)
  {
    if p.None? then c
    else
      var index := IndexOf(c.slots, p);
      if 0 <= index < |c.slots| then
        RemoveAtFacts(c.slots, index);
        c.(slots := c.slots[..index] + c.slots[index + 1..])
      else c
  }

  lemma RemoveAtFacts(s: seq<Option<Pawn>>, k: int)
    requires 0 <= k < |s|
    ensures multiset(s[..k] + s[k + 1..]) == multiset(s) - multiset{s[k]}
    ensures NoNulls(s) ==> NoNulls(s[..k] + s[k + 1..])
  {
    assert s == s[..k] + [s[k]] + s[k + 1..];
  }

  /** The base IsRoomForPawn: below capacity, whatever the colour. */
  function BaseIsRoomForPawn(c: Stack, player: PlayerColor): (r: bool)
    ensures r <==> |c.slots| < c.maxPawns
  {
    |c.slots| < c.maxPawns
  }

  /** HasRoomForPawn answers yes for every container and colour. */
  function HasRoomForPawn(c: Stack, player: PlayerColor): (r: bool)
    ensures r
  {
    true
  }

  /** GetPawn(): the top slot, or null for an empty container. */
  function GetPawn(c: Stack): (r: Option<Pawn>)
    ensures IsEmpty(c) ==> r.None?
    ensures !IsEmpty(c) ==> r == c.slots[|c.slots| - 1]
    ensures NoNulls(c.slots) ==> (r.Some? <==> !IsEmpty(c))
  {
    if !IsEmpty(c) then c.slots[|c.slots| - 1] else None
  }

  /** The scan of GetPawn(color) reads slots from the top down and stops at
      the first pawn of that colour; it dereferences every slot it reads, so
      none of those may be null. */
  predicate ColorScanDefined(s: seq<Option<Pawn>>, color: PlayerColor)
  {
    |s| == 0 ||
    (s[|s| - 1].Some? && (s[|s| - 1].value.color == color || ColorScanDefined(s[..|s| - 1], color)))
  }

  lemma {:induction false} NoNullsScanDefined(s: seq<Option<Pawn>>, color: PlayerColor)
    requires NoNulls(s)
    ensures ColorScanDefined(s, color)
  {
    if |s| > 0 {
      NoNullsScanDefined(s[..|s| - 1], color);
    }
  }

  /** The index of the topmost pawn of `color`, or -1 when there is none. */
  function TopIndexOfColor(s: seq<Option<Pawn>>, color: PlayerColor): (k: int)
    requires ColorScanDefined(s, color)
    ensures -1 <= k < |s|
    ensures 0 <= k ==> s[k].Some? && s[k].value.color == color
    ensures forall j :: k < j < |s| ==> s[j].Some? && s[j].value.color != color
  {
    if |s| == 0 then -1
    else if s[|s| - 1].value.color == color then |s| - 1
    else TopIndexOfColor(s[..|s| - 1], color)
  }

  /** GetPawn(color): the topmost pawn of that colour, or null if none. */
  function GetPawnOfColor(c: Stack, color: PlayerColor): (r: Option<Pawn>)
    requires ColorScanDefined(c.slots, color)
    ensures r.Some? ==> r.value.color == color
    ensures r.Some? ==> exists k :: 0 <= k < |c.slots| && c.slots[k] == r &&
                          forall j :: k < j < |c.slots| ==> c.slots[j].Some? && c.slots[j].value.color != color
    ensures r.None? ==> forall j :: 0 <= j < |c.slots| ==> c.slots[j].Some? && c.slots[j].value.color != color
  {
    if !IsEmpty(c) then
      var k := TopIndexOfColor(c.slots, color);
      if k == -1 then None else c.slots[k]
    else None
  }

  /** The protected MovePawn(destination, pawn): remove from this container,
      then add to the destination. Source and destination are distinct. */
  function MoveGivenPawn(src: Stack, dst: Stack, p: Option<Pawn>): (r: (Stack, Stack))
    ensures p.None? ==> r == (src, dst)
    ensures p.Some? && p in src.slots && |dst.slots| < dst.maxPawns && NoNulls(dst.slots) ==>
              multiset(r.0.slots) + multiset(r.1.slots) == multiset(src.slots) + multiset(dst.slots)
    ensures p.Some? && p in src.slots && |dst.slots| >= dst.maxPawns ==>
              multiset(r.0.slots) + multiset(r.1.slots) == multiset(src.slots) + multiset(dst.slots) - multiset{p}
    ensures p.Some? && p !in src.slots && |dst.slots| < dst.maxPawns && NoNulls(dst.slots) ==>
              r.0 == src && r.1.slots == dst.slots + [p]
    ensures p.Some? && p in src.slots ==> multiset(r.0.slots) == multiset(src.slots) - multiset{p}
    ensures p.Some? && p in src.slots ==>
              exists k :: 0 <= k < |src.slots| && src.slots[k] == p && p !in src.slots[..k]
                          && r.0.slots == src.slots[..k] + src.slots[k + 1..]
    ensures p.Some? && |dst.slots| < dst.maxPawns && NoNulls(dst.slots) ==> r.1.slots == dst.slots + [p]
    ensures |dst.slots| >= dst.maxPawns ==> r.1 == dst
    ensures r.0.maxPawns == src.maxPawns && r.1.maxPawns == dst.maxPawns
  {
    (RemovePawn(src, p), AddPawn(dst, p))
  }

  /** MovePawn(destination): moves the top pawn. */
  function MovePawn(src: Stack, dst: Stack): (r: (Stack, Stack))
    ensures IsEmpty(src) && NoNulls(src.slots) ==> r == (src, dst)
    ensures !IsEmpty(src) && NoNulls(src.slots) && Distinct(src.slots) ==>
              r.0.slots == src.slots[..|src.slots| - 1] && r.0.maxPawns == src.maxPawns
    ensures !IsEmpty(src) && NoNulls(src.slots) && |dst.slots| < dst.maxPawns && NoNulls(dst.slots) ==>
              r.1.slots == dst.slots + [src.slots[|src.slots| - 1]]
    ensures |dst.slots| >= dst.maxPawns ==> r.1 == dst
    ensures r.0.maxPawns == src.maxPawns && r.1.maxPawns == dst.maxPawns
  {
    var top := GetPawn(src);
    if !IsEmpty(src) && Distinct(src.slots) then
      TopIsFirstOccurrence(src.slots);
      MoveGivenPawn(src, dst, top)
    else
      MoveGivenPawn(src, dst, top)
  }

  /** MovePawn(destination, color): moves the topmost pawn of that colour. */
  function MovePawnOfColor(src: Stack, dst: Stack, color: PlayerColor): (r: (Stack, Stack))
    requires ColorScanDefined(src.slots, color)
    ensures GetPawnOfColor(src, color).None? ==> r == (src, dst)
    ensures var p := GetPawnOfColor(src, color);
            p.Some? ==> multiset(r.0.slots) == multiset(src.slots) - multiset{p}
    ensures var p := GetPawnOfColor(src, color);
            p.Some? ==> exists k :: 0 <= k < |src.slots| && src.slots[k] == p
                                    && r.0.slots == src.slots[..k] + src.slots[k + 1..]
    ensures var p := GetPawnOfColor(src, color);
            p.Some? && |dst.slots| < dst.maxPawns && NoNulls(dst.slots) ==> r.1.slots == dst.slots + [p]
    ensures |dst.slots| >= dst.maxPawns ==> r.1 == dst
    ensures r.0.maxPawns == src.maxPawns && r.1.maxPawns == dst.maxPawns
  {
    var p := GetPawnOfColor(src, color);
    assert p.Some? ==> p in src.slots;
    MoveGivenPawn(src, dst, p)
  }

  /** In a list without repeated pawns, the top pawn is found first by IndexOf
      at the top position. */
  lemma TopIsFirstOccurrence(s: seq<Option<Pawn>>)
    requires |s| > 0 && Distinct(s)
    ensures IndexOf(s, s[|s| - 1]) == |s| - 1
  {
  }

  /** A move of the top pawn conserves the total number of pawns exactly when
      the destination is below capacity; at capacity the pawn is removed from
      the source and added nowhere. */
  lemma MovePawnCount(src: Stack, dst: Stack)
    requires NoNulls(src.slots) && NoNulls(dst.slots)
    requires !IsEmpty(src)
    ensures var r := MovePawn(src, dst);
            |dst.slots| < dst.maxPawns ==> |r.0.slots| + |r.1.slots| == |src.slots| + |dst.slots|
    ensures var r := MovePawn(src, dst);
            |dst.slots| >= dst.maxPawns ==> |r.0.slots| + |r.1.slots| == |src.slots| + |dst.slots| - 1
  {
  }

  /** Adding a pawn below capacity makes it the new top, adds one to the count
      and keeps the pawns already there in their order. */
  lemma AddThenTop(c: Stack, p: Pawn)
    requires NoNulls(c.slots) && |c.slots| < c.maxPawns
    ensures GetPawn(AddPawn(c, Some(p))) == Some(p)
    ensures |AddPawn(c, Some(p)).slots| == |c.slots| + 1
    ensures AddPawn(c, Some(p)).slots[..|c.slots|] == c.slots
  {
  }

  /** A call of AddPawn or RemovePawn. */
  datatype StackOp = Add(pawn: Option<Pawn>) | Remove(pawn: Option<Pawn>)

  function ApplyAll(c: Stack, ops: seq<StackOp>): Stack
    decreases |ops|
  {
    if |ops| == 0 then c
    else
      var next := match ops[0]
        case Add(p) => AddPawn(c, p)
        case Remove(p) => RemovePawn(c, p);
      ApplyAll(next, ops[1..])
  }

  /** The list never holds null, and never exceeds MaxPawns, after any
      sequence of additions and removals starting from such a list. */
  lemma {:induction false} NoNullsForever(c: Stack, ops: seq<StackOp>)
    requires NoNulls(c.slots) && |c.slots| <= c.maxPawns
    ensures NoNulls(ApplyAll(c, ops).slots)
    ensures |ApplyAll(c, ops).slots| <= c.maxPawns
    ensures ApplyAll(c, ops).maxPawns == c.maxPawns
    decreases |ops|
  {
    if |ops| > 0 {
      var next := match ops[0]
        case Add(p) => AddPawn(c, p)
        case Remove(p) => RemovePawn(c, p);
      NoNullsForever(next, ops[1..]);
    }
  }

  function Min(a: int, b: int): int
  {
    if a <= b then a else b
  }

  /** The initial fill of Start: InitialPawns new pawns of InitialPawnsColor
      are added one by one; additions beyond MaxPawns are refused. The new
      pawns get the fresh identities firstId, firstId + 1, ... */
  method InitialFill(initialPawns: nat, maxPawns: int, color: PlayerColor, firstId: nat) returns (c: Stack)
    ensures c.maxPawns == maxPawns
    ensures |c.slots| == Min(initialPawns, if maxPawns < 0 then 0 else maxPawns)
    ensures NoNulls(c.slots) && Distinct(c.slots)
    ensures forall j :: 0 <= j < |c.slots| ==> c.slots[j].value.color == color
  {
    var cap := if maxPawns < 0 then 0 else maxPawns;
    c := Stack([], maxPawns);
    var i := 0;
    while i < initialPawns
      invariant 0 <= i <= initialPawns
      invariant c.maxPawns == maxPawns
      invariant |c.slots| == Min(i, cap)
      invariant NoNulls(c.slots) && Distinct(c.slots)
      invariant forall j :: 0 <= j < |c.slots| ==> c.slots[j].value.color == color
      invariant forall j :: 0 <= j < |c.slots| ==> firstId <= c.slots[j].value.id < firstId + i
    {
      c := AddPawn(c, Some(Pawn(firstId + i, color)));
      i := i + 1;
    }
  }
}

=== FILE: dice.dfy ===
/** One die (DiceController.cs): two flags and the face index. The roll
    coroutine (delays, random flips, sprites) is one step, FinishRoll, that
    lands on some face index 0..5 chosen by the environment. */
module Dice {
  import opened States

  /** `spriteIndex` is the face index; the face shows spriteIndex + 1 dots. */
  datatype Die = Die(canRoll: bool, finishedRolling: bool, spriteIndex: int)

  /** The face index of a die is one of the six sprites. */
  predicate Wf(d: Die)
  {
    0 <= d.spriteIndex < 6
  }

  /** A die as created: it cannot roll yet, counts as finished and shows one dot. */
  function InitialDie(): (d: Die)
    ensures !d.canRoll && d.finishedRolling && GetDots(d) == 1 && Wf(d)
  {
    Die(false, true, 0)
  }

  /** GetDots: the number of dots on the face shown. */
  function GetDots(d: Die): (n: int)
    ensures Wf(d) ==> 1 <= n <= 6
  {
    d.spriteIndex + 1
  }

  /** HasFinishedRolling: the finished flag, as the last Roll or roll end left it. */
  function HasFinishedRolling(d: Die): (r: bool)
    ensures r <==> d.finishedRolling
  {
    d.finishedRolling
  }

  /** Roll: when allowed, clears both flags and starts a roll (the second
      component says whether one was started); otherwise nothing happens.
      The face is not touched until the roll finishes. */
  function Roll(d: Die): (r: (Die, bool))
    ensures d.canRoll ==> r.1 && !r.0.canRoll && !HasFinishedRolling(r.0) && GetDots(r.0) == GetDots(d)
    ensures !d.canRoll ==> r == (d, false)
  {
    if d.canRoll then (d.(canRoll := false, finishedRolling := false), true)
    else (d, false)
  }

  /** The end of the roll coroutine: the face is the last flip's index,
      Random.Range(0, 6), and the die has finished rolling. */
  function FinishRoll(d: Die, index: int): (r: Die)
    requires 0 <= index < 6
    ensures HasFinishedRolling(r) && GetDots(r) == index + 1 && Wf(r)
    ensures r.canRoll == d.canRoll
  {
    d.(spriteIndex := index, finishedRolling := true)
  }

  /** Reset: allows one more roll and touches nothing else. */
  function Reset(d: Die): (r: Die)
    ensures r.canRoll
    ensures r.finishedRolling == d.finishedRolling && GetDots(r) == GetDots(d)
  {
    d.(canRoll := true)
  }

  /** Use is an empty stub. */
  function Use(d: Die, whole: bool): (r: Die)
    ensures r == d
  {
    d
  }

  /** The die's handler for the game's state changes: entering a rolling
      state resets it, any other state leaves it alone. */
  function OnStateChanged(d: Die, oldState: GameState, newState: GameState): (r: Die)
    ensures IsRollState(newState) ==> r.canRoll
    ensures r.finishedRolling == d.finishedRolling && r.spriteIndex == d.spriteIndex
    ensures !IsRollState(newState) ==> r == d
  {
    if newState == RedPlayerRolls || newState == WhitePlayerRolls then Reset(d) else d
  }

  /** Everything that can happen to a die. */
  datatype DieEvent =
    | RollCalled
    | RollFinished(index: int)
    | ResetCalled
    | UseCalled(whole: bool)
    | StateChanged(oldState: GameState, newState: GameState)

  predicate EventOk(e: DieEvent)
  {
    e.RollFinished? ==> 0 <= e.index < 6
  }

  /** One event: the new die and whether a roll was started. */
  function Apply(d: Die, e: DieEvent): (r: (Die, bool))
    requires EventOk(e)
  {
    match e
    case RollCalled => Roll(d)
    case RollFinished(i) => (FinishRoll(d, i), false)
    case ResetCalled => (Reset(d), false)
    case UseCalled(w) => (Use(d, w), false)
    case StateChanged(o, n) => (OnStateChanged(d, o, n), false)
  }

  /** A sequence of events: the final die and the number of rolls started. */
  function Run(d: Die, es: seq<DieEvent>): (Die, nat)
    requires forall i :: 0 <= i < |es| ==> EventOk(es[i])
    decreases |es|
  {
    if |es| == 0 then (d, 0)
    else
      var step := Apply(d, es[0]);
      var rest := Run(step.0, es[1..]);
      (rest.0, rest.1 + (if step.1 then 1 else 0))
  }

  /** The events that allow a new roll. */
  function Resets(es: seq<DieEvent>): nat
  {
    if |es| == 0 then 0
    else
      (if es[0].ResetCalled? || (es[0].StateChanged? && IsRollState(es[0].newState)) then 1 else 0)
      + Resets(es[1..])
  }

  function Credit(d: Die): nat
  {
    if d.canRoll then 1 else 0
  }

  /** At most one roll is started per reset: over any run, the rolls started
      plus the roll still allowed at the end never exceed the resets plus
      the roll allowed at the start. */
  lemma {:induction false} RollsBoundedByResets(d: Die, es: seq<DieEvent>)
    requires forall i :: 0 <= i < |es| ==> EventOk(es[i])
    ensures Run(d, es).1 + Credit(Run(d, es).0) <= Resets(es) + Credit(d)
    decreases |es|
  {
    if |es| > 0 {
      var step := Apply(d, es[0]);
      RollsBoundedByResets(step.0, es[1..]);
    }
  }

  /** The face always shows 1..6 dots, whatever happens to the die. */
  lemma {:induction false} DotsStayInRange(d: Die, es: seq<DieEvent>)
    requires Wf(d)
    requires forall i :: 0 <= i < |es| ==> EventOk(es[i])
    ensures Wf(Run(d, es).0) && 1 <= GetDots(Run(d, es).0) <= 6
    decreases |es|
  {
    if |es| > 0 {
      DotsStayInRange(Apply(d, es[0]).0, es[1..]);
    }
  }
}

=== FILE: fields.dfy ===
/** Board fields (FieldController.cs): a container whose room rule is
    overridden. Clicks and highlighting are presentation and are left out. */
module Fields {
  import opened Wrappers
  import opened Pawns
  import opened Containers

  /** The room rule reads the top pawn's colour unless the field is empty and
      below capacity, so an empty field needs MaxPawns > 0 and a non-empty one
      needs a non-null top slot; otherwise the rule dereferences null. */
  predicate RoomDefined(c: Stack)
  {
    if IsEmpty(c) then c.maxPawns > 0 else c.slots[|c.slots| - 1].Some?
  }

  /** The colour of the top pawn of a non-empty field. */
  function TopColor(c: Stack): PlayerColor
    requires RoomDefined(c) && !IsEmpty(c)
  {
    GetPawn(c).value.color
  }

  /** The overriding IsRoomForPawn. C# binds && tighter than ||, so the rule
      reads (below capacity && empty) || top is the player's || exactly one pawn. */
  function IsRoomForPawn(c: Stack, player: PlayerColor): (r: bool)
    requires RoomDefined(c)
    ensures IsEmpty(c) ==> r
    ensures |c.slots| == 1 ==> r
    ensures !IsEmpty(c) && TopColor(c) == player ==> r
    ensures |c.slots| >= 2 && TopColor(c) != player ==> !r
  {
    (BaseIsRoomForPawn(c, player) && IsEmpty(c)) || TopColor(c) == player || |c.slots| == 1
  }

  /** The reading with the capacity test over the whole disjunction. */
  predicate GroupedRoom(c: Stack, player: PlayerColor)
    requires RoomDefined(c)
  {
    BaseIsRoomForPawn(c, player) && (IsEmpty(c) || TopColor(c) == player || |c.slots| == 1)
  }

  /** The two readings disagree exactly on a field at or over capacity whose
      top pawn is the player's or which holds a single pawn: the rule as
      written reports room there, while AddPawn will refuse the pawn. */
  lemma PrecedenceMatters(c: Stack, player: PlayerColor)
    requires RoomDefined(c)
    ensures IsRoomForPawn(c, player) != GroupedRoom(c, player) <==>
              |c.slots| >= c.maxPawns && !IsEmpty(c) && (TopColor(c) == player || |c.slots| == 1)
  {
  }

  /** Room is reported on a full field topped by the player's colour, yet
      adding a pawn there changes nothing. */
  lemma FullOwnFieldReportsRoom(c: Stack, p: Pawn)
    requires !IsEmpty(c) && c.slots[|c.slots| - 1].Some?
    requires |c.slots| >= c.maxPawns && TopColor(c) == p.color
    ensures IsRoomForPawn(c, p.color)
    ensures AddPawn(c, Some(p)) == c
  {
  }
}

=== FILE: gamemanager.dfy ===
/** The turn state machine (GameManager.cs): the game state and the player
    derived from it, the dice-finished transitions, move permission, the
    building of possible moves and the click that moves a pawn. Scene lookup,
    editor menu items and the delay before the game starts are left out;
    the board has 24 fields and there are 2 dice. */
module GameManager {
  import opened Wrappers
  import opened Pawns
  import opened Containers
  import opened Fields
  import opened States
  import opened Dice
  import opened Board
  import opened Moves

  /** The GameManager's state. `fromField` is FromField named by its index
      in FieldsOrder (-1 for a field outside it), None while it is null;
      `possibleMoves` is None while PossibleMoves is null; `startPending`
      says the StartGame coroutine has not fired yet. */
  datatype Game = Game(
    state: GameState,
    currentPlayer: PlayerColor,
    fields: seq<Stack>,
    dice: seq<Die>,
    fromField: Option<int>,
    possibleMoves: Option<seq<Move>>,
    startPending: bool)

  /** A field as the game keeps it: no null slot and room for at least one pawn. */
  predicate FieldOk(c: Stack)
  {
    NoNulls(c.slots) && c.maxPawns > 0
  }

  /** Every possible move starts at FromField. */
  predicate MovesAnchored(g: Game)
  {
    g.possibleMoves.Some? ==>
      forall m :: m in g.possibleMoves.value ==>
        0 <= m.startIndex < |g.fields| && g.fromField == Some(m.startIndex)
  }

  /** The invariant of every reachable game. */
  predicate Wf(g: Game)
  {
    && |g.fields| == 24
    && |g.dice| == 2
    && (forall i :: 0 <= i < |g.fields| ==> FieldOk(g.fields[i]))
    && (forall i :: 0 <= i < |g.dice| ==> Dice.Wf(g.dice[i]))
    && (g.state != Init ==> g.currentPlayer == PlayerOf(g.state))
    && (g.state == Init ==> g.currentPlayer == Red)
    && (g.startPending ==> g.state == Init)
    && MovesAnchored(g)
  }

  lemma FieldsOkRoomDefined(fields: seq<Stack>)
    requires forall i :: 0 <= i < |fields| ==> FieldOk(fields[i])
    ensures AllRoomDefined(fields)
  {
  }

  /** The game as the scene starts it: Init, Red, fresh dice, no moves. */
  function InitialGame(fields: seq<Stack>): (g: Game)
    requires |fields| == 24 && forall i :: 0 <= i < |fields| ==> FieldOk(fields[i])
    ensures Wf(g) && g.state == Init && g.currentPlayer == Red && g.fields == fields
    ensures forall i :: 0 <= i < |g.dice| ==> !g.dice[i].canRoll && HasFinishedRolling(g.dice[i])
    ensures g.startPending && g.fromField.None? && g.possibleMoves.None?
    ensures g.dice == [InitialDie(), InitialDie()]
  {
    Game(Init, Red, fields, [InitialDie(), InitialDie()], None, None, true)
  }

  /** The dice's handlers for a state change, applied to every die. */
  function NotifyDice(dice: seq<Die>, oldState: GameState, newState: GameState): (r: seq<Die>)
    ensures |r| == |dice|
    ensures forall i :: 0 <= i < |dice| ==> r[i] == OnStateChanged(dice[i], oldState, newState)
  {
    seq(|dice|, i requires 0 <= i < |dice| => OnStateChanged(dice[i], oldState, newState))
  }

  /** ChangeState: sets the state, derives the current player from it, and
      notifies the dice, which reset when a rolling state is entered. */
  function ChangeState(g: Game, s: GameState): (r: Game)
    ensures r.state == s
    ensures r.currentPlayer == Red <==> s == RedPlayerRolls || s == RedPlayerMoves
    ensures r.fields == g.fields && r.fromField == g.fromField
    ensures r.possibleMoves == g.possibleMoves && r.startPending == g.startPending
    ensures |r.dice| == |g.dice|
    ensures forall i :: 0 <= i < |g.dice| ==> r.dice[i] == OnStateChanged(g.dice[i], g.state, s)
  {
    g.(state := s, currentPlayer := PlayerOf(s), dice := NotifyDice(g.dice, g.state, s))
  }

  /** The check loop of Dice_OnRolled: walks the dice in order and stops at
      the first one still rolling. */
  function AllFinished(dice: seq<Die>): (r: bool)
    ensures r <==> forall i :: 0 <= i < |dice| ==> HasFinishedRolling(dice[i])
  {
    if |dice| == 0 then true
    else if !HasFinishedRolling(dice[0]) then false
    else AllFinished(dice[1..])
  }

  /** Dice_OnRolled: once every die has finished, a rolling state gives way
      to the same player's moving state; otherwise nothing changes. */
  function DiceRolled(g: Game): (r: Game)
    ensures !AllFinished(g.dice) || !IsRollState(g.state) ==> r == g
    ensures AllFinished(g.dice) && g.state == RedPlayerRolls ==> r.state == RedPlayerMoves
    ensures AllFinished(g.dice) && g.state == WhitePlayerRolls ==> r.state == WhitePlayerMoves
    ensures r.currentPlayer == PlayerOf(r.state) || r == g
    ensures r.fields == g.fields && r.dice == g.dice
    ensures r.fromField == g.fromField && r.possibleMoves == g.possibleMoves && r.startPending == g.startPending
  {
    if AllFinished(g.dice) then
      if g.state == RedPlayerRolls then ChangeState(g, RedPlayerMoves)
      else if g.state == WhitePlayerRolls then ChangeState(g, WhitePlayerMoves)
      else g
    else g
  }

  /** The StartGame coroutine: Red rolls first. */
  function StartGame(g: Game): (r: Game)
    ensures r.state == RedPlayerRolls && r.currentPlayer == Red && !r.startPending
    ensures forall i :: 0 <= i < |r.dice| ==> r.dice[i].canRoll
    ensures r.fields == g.fields && r.possibleMoves == g.possibleMoves && r.fromField == g.fromField
    ensures |r.dice| == |g.dice| && forall i :: 0 <= i < |g.dice| ==> r.dice[i] == Reset(g.dice[i])
  {
    ChangeState(g.(startPending := false), RedPlayerRolls)
  }

  /** Roll called on one die. */
  function RollDie(g: Game, i: int): (r: Game)
    requires 0 <= i < |g.dice|
    ensures |r.dice| == |g.dice| && r.dice[i] == Roll(g.dice[i]).0
    ensures forall j :: 0 <= j < |g.dice| && j != i ==> r.dice[j] == g.dice[j]
    ensures r.state == g.state && r.fields == g.fields && r.possibleMoves == g.possibleMoves
    ensures r == g.(dice := r.dice)
  {
    g.(dice := g.dice[i := Roll(g.dice[i]).0])
  }

  /** A die's roll coroutine finishes on face index `index`, and the game
      reacts to the die's OnRolled notification. */
  function RollFinished(g: Game, i: int, index: int): (r: Game)
    requires 0 <= i < |g.dice| && 0 <= index < 6
    ensures |r.dice| == |g.dice| && GetDots(r.dice[i]) == index + 1 && HasFinishedRolling(r.dice[i])
    ensures forall j :: 0 <= j < |g.dice| && j != i ==> r.dice[j] == g.dice[j]
    ensures var d := g.dice[i := FinishRoll(g.dice[i], index)];
            r.state == (if AllFinished(d) && IsRollState(g.state) then MovesStateOf(PlayerOf(g.state)) else g.state)
    ensures r.currentPlayer == (if r.state == g.state then g.currentPlayer else PlayerOf(r.state))
    ensures r.fields == g.fields && r.possibleMoves == g.possibleMoves
    ensures r.fromField == g.fromField && r.startPending == g.startPending
  {
    DiceRolled(g.(dice := g.dice[i := FinishRoll(g.dice[i], index)]))
  }

  /** CanPlayerMove: a pawn of the current player, in that player's moving state. */
  function CanPlayerMove(g: Game, pawn: Option<Pawn>): (r: bool)
    ensures r <==> pawn.Some? && pawn.value.color == g.currentPlayer && g.state == MovesStateOf(pawn.value.color)
  {
    if pawn.Some? && g.currentPlayer == pawn.value.color then
      if pawn.value.color == Red then g.state == RedPlayerMoves else g.state == WhitePlayerMoves
    else false
  }

  /** In a reachable game the current player follows the state, so a pawn may
      move exactly in its own colour's moving state. */
  lemma CanPlayerMoveIff(g: Game, pawn: Pawn)
    requires Wf(g)
    ensures CanPlayerMove(g, Some(pawn)) <==> g.state == MovesStateOf(pawn.color)
  {
  }

  /** ShowPossibleMoves for a pawn whose field is `at` (the field's index in
      FieldsOrder, -1 when outside it; None when the pawn has no field). A
      null pawn changes nothing. When the pawn may move, FromField becomes its field, any previous moves
      are cleared, and for a field of the board the moves are rebuilt from
      that field and the dots the two dice show. */
  function ShowPossibleMoves(g: Game, pawn: Option<Pawn>, at: Option<int>): (r: Game)
    requires |g.dice| >= 2 && AllRoomDefined(g.fields)
    ensures pawn.None? || !CanPlayerMove(g, pawn) || at.None? ==> r == g
    ensures r.state == g.state && r.currentPlayer == g.currentPlayer
    ensures r.fields == g.fields && r.dice == g.dice && r.startPending == g.startPending
    ensures CanPlayerMove(g, pawn) && at.Some? ==> r.fromField == at
    ensures CanPlayerMove(g, pawn) && at.Some? && 0 <= at.value < |g.fields| ==>
              r.possibleMoves.Some? &&
              forall f: nat :: IsMovePossible(r.possibleMoves.value, f) <==>
                IsReachableTarget(g.fields, pawn.value.color, at.value, GetDots(g.dice[0]), GetDots(g.dice[1]), f)
    ensures CanPlayerMove(g, pawn) && at.Some? && !(0 <= at.value < |g.fields|) ==>
              r.possibleMoves == (if g.possibleMoves.Some? then Some([]) else None)
  {
    if CanPlayerMove(g, pawn) && at.Some? then
      var cleared := if g.possibleMoves.Some? then Some(Clear(g.possibleMoves.value)) else None;
      var fieldIndex := at.value;
      if IsValidFieldIndex(g.fields, fieldIndex) then
        var manager := Manager(g.fields, g.currentPlayer);
        var first := GetDots(g.dice[0]);
        var second := GetDots(g.dice[1]);
        var moves := PossibleMovesOf(Some(manager), fieldIndex, first, second);
        forall f: nat
          ensures IsMovePossible(moves, f) <==> IsReachableTarget(g.fields, pawn.value.color, fieldIndex, first, second, f)
        {
          MovePossibleIff(manager, fieldIndex, first, second, f);
        }
        g.(fromField := at, possibleMoves := Some(moves))
      else
        g.(fromField := at, possibleMoves := cleared)
    else g
  }

  /** A possible move to a field means FromField is a field of the board. */
  lemma AnchoredFromField(g: Game, f: nat)
    requires MovesAnchored(g) && g.possibleMoves.Some? && IsMovePossible(g.possibleMoves.value, f)
    ensures g.fromField.Some? && 0 <= g.fromField.value < |g.fields|
  {
  }

  /** Field_OnClicked for field `f` of FieldsOrder: in a moving state, when a
      possible move ends there, the top pawn of FromField is moved there and
      the moves are cleared; otherwise nothing changes. */
  function FieldClicked(g: Game, f: nat): (r: Game)
    requires f < |g.fields| && MovesAnchored(g)
    ensures !IsMovesState(g.state) ==> r == g
    ensures g.possibleMoves.None? || !IsMovePossible(g.possibleMoves.value, f) ==> r == g
    ensures r.state == g.state && r.currentPlayer == g.currentPlayer && r.dice == g.dice
    ensures r.fromField == g.fromField && r.startPending == g.startPending
    ensures r != g ==> r.possibleMoves == Some([]) && g.fromField.Some?
                       && 0 <= g.fromField.value < |g.fields|
                       && r.fields == MoveTopPawn(g.fields, g.fromField.value, f)
    ensures IsMovesState(g.state) && g.possibleMoves.Some? && IsMovePossible(g.possibleMoves.value, f) ==>
              r.possibleMoves == Some([]) && g.fromField.Some? && 0 <= g.fromField.value < |g.fields|
              && r.fields == MoveTopPawn(g.fields, g.fromField.value, f)
  {
    if (g.state == RedPlayerMoves || g.state == WhitePlayerMoves)
       && g.possibleMoves.Some? && IsMovePossible(g.possibleMoves.value, f) then
      AnchoredFromField(g, f);
      g.(fields := MoveTopPawn(g.fields, g.fromField.value, f),
         possibleMoves := Some(Clear(g.possibleMoves.value)))
    else g
  }

  /** A click that moves a pawn moves the top pawn of FromField, whatever its
      colour, and leaves every other field as it was. */
  lemma ClickMovesTopPawn(g: Game, f: nat)
    requires Wf(g) && f < |g.fields|
    requires IsMovesState(g.state) && g.possibleMoves.Some? && IsMovePossible(g.possibleMoves.value, f)
    ensures g.fromField.Some? && 0 <= g.fromField.value < |g.fields|
    ensures var from := g.fromField.value;
            var top := GetPawn(g.fields[from]);
            var r := FieldClicked(g, f);
            from != f ==>
              r.fields[from] == RemovePawn(g.fields[from], top)
              && r.fields[f] == AddPawn(g.fields[f], top)
              && (forall i :: 0 <= i < |g.fields| && i != from && i != f ==> r.fields[i] == g.fields[i])
    ensures FieldClicked(g, f).possibleMoves == Some([])
  {
  }

  /** A click keeps the number of pawns on the two fields when the target is
      below capacity; at capacity the room rule still lets a same-colour or
      single-pawn target through, and the moved pawn ends up on no field. */
  lemma ClickPawnCount(g: Game, f: nat)
    requires Wf(g) && f < |g.fields|
    requires IsMovesState(g.state) && g.possibleMoves.Some? && IsMovePossible(g.possibleMoves.value, f)
    requires g.fromField.Some? && g.fromField.value != f
    requires 0 <= g.fromField.value < |g.fields|
    requires !IsEmpty(g.fields[g.fromField.value])
    ensures var from := g.fromField.value;
            var r := FieldClicked(g, f);
            |r.fields[from].slots| + |r.fields[f].slots|
              == |g.fields[from].slots| + |g.fields[f].slots|
                 - (if |g.fields[f].slots| >= g.fields[f].maxPawns then 1 else 0)
  {
  }

  /** Everything the scene can do to the game. */
  datatype Event =
    | GameStarted
    | DieClicked(die: int)
    | DieRollFinished(die: int, index: int)
    | PawnClicked(pawn: Option<Pawn>, at: Option<int>)
    | FieldClickedOn(field: int)

  predicate EventOk(g: Game, e: Event)
  {
    match e
    case GameStarted => g.startPending
    case DieClicked(i) => 0 <= i < |g.dice|
    case DieRollFinished(i, index) => 0 <= i < |g.dice| && 0 <= index < 6
    case PawnClicked(_, _) => true
    case FieldClickedOn(f) => 0 <= f < |g.fields|
  }

  function Step(g: Game, e: Event): (r: Game)
    requires Wf(g) && EventOk(g, e)
  {
    FieldsOkRoomDefined(g.fields);
    match e
    case GameStarted => StartGame(g)
    case DieClicked(i) => RollDie(g, i)
    case DieRollFinished(i, index) => RollFinished(g, i, index)
    case PawnClicked(p, at) => ShowPossibleMoves(g, p, at)
    case FieldClickedOn(f) => FieldClicked(g, f)
  }

  /** Every event keeps the invariant, and the only state changes are
      Init to RedPlayerRolls and a rolling state to the same player's moving
      state: no event leaves a moving state. */
  lemma StepKeepsWf(g: Game, e: Event)
    requires Wf(g) && EventOk(g, e)
    ensures Wf(Step(g, e))
    ensures var r := Step(g, e);
            r.state != g.state ==>
              (g.state == Init && r.state == RedPlayerRolls)
              || (g.state == RedPlayerRolls && r.state == RedPlayerMoves)
              || (g.state == WhitePlayerRolls && r.state == WhitePlayerMoves)
  {
  }

  predicate EventsOk(g: Game, es: seq<Event>)
    requires Wf(g)
    decreases |es|
  {
    |es| == 0 || (EventOk(g, es[0]) && (StepKeepsWf(g, es[0]); EventsOk(Step(g, es[0]), es[1..])))
  }

  /** A run of events from a reachable game. */
  function Run(g: Game, es: seq<Event>): (r: Game)
    requires Wf(g) && EventsOk(g, es)
    ensures Wf(r)
    decreases |es|
  {
    if |es| == 0 then g
    else
      StepKeepsWf(g, es[0]);
      Run(Step(g, es[0]), es[1..])
  }

  /** Once in a moving state, the game stays there whatever happens: the
      code has no transition out of RedPlayerMoves or WhitePlayerMoves. */
  lemma {:induction false} MovesStateIsFinal(g: Game, es: seq<Event>)
    requires Wf(g) && EventsOk(g, es) && IsMovesState(g.state)
    ensures Run(g, es).state == g.state
    decreases |es|
  {
    if |es| > 0 {
      StepKeepsWf(g, es[0]);
      MovesStateIsFinal(Step(g, es[0]), es[1..]);
    }
  }

  /** Picking pawns and clicking fields never changes the dice, so a second
      move in the same turn is built from the same dots. */
  lemma MovesReuseDice(g: Game, e: Event)
    requires Wf(g) && EventOk(g, e) && (e.PawnClicked? || e.FieldClickedOn?)
    ensures Step(g, e).dice == g.dice
  {
  }
}

=== FILE: moves.dfy ===
/** Candidate moves (PossibleMoves.cs): a Move from a start field by a number
    of steps, and the list of moves built from two dice values and filtered
    by the destination's room rule. Highlighting (Show/Hide) and logging are
    left out. */
module Moves {
  import opened Wrappers
  import opened Pawns
  import opened Containers
  import opened Fields
  import opened Board

  /** What a move reads from its GameManager: FieldsOrder and the player
      whose turn it is. */
  datatype Manager = Manager(fields: seq<Stack>, player: PlayerColor)

  /** A move. Fields are named by their index in FieldsOrder; None is null. */
  datatype Move = Move(startIndex: int, steps: int, destinationIndex: int,
                       startField: Option<nat>, destinationField: Option<nat>)

  /** The field references of a move name fields of the board. */
  predicate FitsBoard(fields: seq<Stack>, m: Move)
  {
    m.destinationField.Some? ==> m.destinationField.value < |fields|
  }

  /** The Move constructor. Without a GameManager only the start index and
      the steps are recorded. */
  function NewMove(manager: Option<Manager>, start: int, steps: int): (m: Move)
    ensures m.startIndex == start && m.steps == steps
    ensures manager.None? ==> m.destinationIndex == -1 && m.startField.None? && m.destinationField.None?
    ensures manager.Some? && manager.value.player == Red ==> m.destinationIndex == start + steps
    ensures manager.Some? && manager.value.player == White ==> m.destinationIndex == start - steps
    ensures manager.Some? ==> (m.startField.Some? <==> 0 <= start < |manager.value.fields|)
    ensures manager.Some? ==> (m.destinationField.Some? <==> 0 <= m.destinationIndex < |manager.value.fields|)
    ensures m.destinationField.Some? ==> m.destinationField.value == m.destinationIndex
    ensures manager.Some? ==> FitsBoard(manager.value.fields, m)
  {
    if manager.Some? then
      var destinationIndex := Target(manager.value.player, start, steps);
      Move(start, steps, destinationIndex,
           GetField(manager.value.fields, start), GetField(manager.value.fields, destinationIndex))
    else Move(start, steps, -1, None, None)
  }

  /** Move.IsValid: both fields exist and the destination has room for the
      player whose turn it is. */
  function IsValid(manager: Manager, m: Move): (r: bool)
    requires AllRoomDefined(manager.fields) && FitsBoard(manager.fields, m)
    ensures r ==> m.startField.Some? && m.destinationField.Some?
  {
    m.destinationField.Some? && m.startField.Some?
    && IsRoomForPawn(manager.fields[m.destinationField.value], manager.player)
  }

  /** A move built from a start index is valid exactly when the start index
      names a field and GameManager.IsValidMove accepts the same dots. */
  lemma IsValidAgreesWithIsValidMove(manager: Manager, start: int, steps: int)
    requires AllRoomDefined(manager.fields)
    ensures IsValid(manager, NewMove(Some(manager), start, steps)) <==>
              0 <= start < |manager.fields| && IsValidMove(manager.fields, manager.player, start, steps).0
  {
  }

  /** The do-while of the constructor, run `counter` times: each round adds
      the first value, the second value and their sum. */
  function Rounds(a: int, b: int, counter: nat): (r: seq<int>)
    requires counter >= 1
    ensures |r| == 3 * counter
    ensures forall i :: 0 <= i < |r| ==> r[i] == [a, b, a + b][i % 3]
    decreases counter
  {
    [a, b, a + b] + (if counter - 1 > 0 then Rounds(a, b, counter - 1) else [])
  }

  /** The step counts the constructor tries, before filtering: the loop runs
      twice for equal dice, and equal dice add four times the value. */
  function CandidateSteps(a: int, b: int): (r: seq<int>)
    ensures a != b ==> r == [a, b, a + b]
    ensures a == b ==> r == [a, a, 2 * a, a, a, 2 * a, 4 * a]
    ensures a == b && a != 0 ==> 3 * a !in r
  {
    var counter := if a == b then 2 else 1;
    Rounds(a, b, counter) + (if a == b then [a * 4] else [])
  }

  /** One Move per step count, in order. */
  function MovesFor(manager: Option<Manager>, start: int, steps: seq<int>): (r: seq<Move>)
    ensures |r| == |steps|
    ensures forall i :: 0 <= i < |steps| ==> r[i] == NewMove(manager, start, steps[i])
  {
    if |steps| == 0 then []
    else [NewMove(manager, start, steps[0])] + MovesFor(manager, start, steps[1..])
  }

  /** The valid moves of a list, in their order. */
  function KeepValid(manager: Manager, moves: seq<Move>): (r: seq<Move>)
    requires AllRoomDefined(manager.fields)
    requires forall m :: m in moves ==> FitsBoard(manager.fields, m)
    ensures |r| <= |moves|
    ensures forall m :: m in r <==> m in moves && IsValid(manager, m)
  {
    if |moves| == 0 then []
    else
      var rest := KeepValid(manager, moves[1..]);
      if IsValid(manager, moves[0]) then [moves[0]] + rest else rest
  }

  /** The constructor's removal loop: it walks the list from the back and
      removes each invalid move in place. What remains is exactly the valid
      moves in their original order. */
  method RemoveInvalid(manager: Manager, candidates: seq<Move>) returns (moves: seq<Move>)
    requires AllRoomDefined(manager.fields)
    requires forall m :: m in candidates ==> FitsBoard(manager.fields, m)
    ensures moves == KeepValid(manager, candidates)
  {
    moves := candidates;
    var iMove := |moves| - 1;
    while iMove >= 0
      invariant -1 <= iMove < |candidates|
      invariant moves == candidates[..iMove + 1] + KeepValid(manager, candidates[iMove + 1..])
    {
      var tail := candidates[iMove..];
      assert tail[0] == candidates[iMove] && tail[1..] == candidates[iMove + 1..];
      assert moves[iMove] == candidates[iMove];
      if !IsValid(manager, moves[iMove]) {
        assert candidates[..iMove + 1] == candidates[..iMove] + [candidates[iMove]];
        moves := moves[..iMove] + moves[iMove + 1..];
      } else {
        assert candidates[..iMove + 1] == candidates[..iMove] + [candidates[iMove]];
      }
      iMove := iMove - 1;
    }
    assert candidates[0..] == candidates;
  }

  /** The PossibleMoves constructor: without a GameManager the list is empty;
      otherwise it holds the valid moves among the candidates. */
  function PossibleMovesOf(manager: Option<Manager>, start: int, first: int, second: int): (r: seq<Move>)
    requires manager.Some? ==> AllRoomDefined(manager.value.fields)
    ensures manager.None? ==> r == []
    ensures manager.Some? ==>
              forall i :: 0 <= i < |r| ==>
                r[i].steps in CandidateSteps(first, second)
                && r[i] == NewMove(manager, start, r[i].steps)
                && IsValid(manager.value, r[i])
  {
    if manager.None? then []
    else
      var candidates := MovesFor(manager, start, CandidateSteps(first, second));
      var kept := KeepValid(manager.value, candidates);
      assert forall i :: 0 <= i < |kept| ==> kept[i] in candidates;
      kept
  }

  /** IsMovePossible: some move of the list ends on the field. */
  function IsMovePossible(moves: seq<Move>, field: nat): (r: bool)
    ensures r <==> exists i :: 0 <= i < |moves| && moves[i].destinationField == Some(field)
  {
    if |moves| == 0 then false
    else if moves[0].destinationField == Some(field) then true
    else IsMovePossible(moves[1..], field)
  }

  /** Clear: empties the list, so no field can be moved to any more. */
  function Clear(moves: seq<Move>): (r: seq<Move>)
    ensures forall f: nat :: !IsMovePossible(r, f)
  {
    []
  }

  /** Field `f` is on the board, is reached from `start` by one of the
      candidate step counts in the player's direction, and has room for the
      player. */
  predicate IsReachableTarget(fields: seq<Stack>, player: PlayerColor, start: int, first: int, second: int, f: nat)
    requires AllRoomDefined(fields)
  {
    f < |fields|
    && (exists s :: s in CandidateSteps(first, second) && Target(player, start, s) == f)
    && IsRoomForPawn(fields[f], player)
  }

  /** A field can be moved to exactly when the start names a field and the
      field is a reachable target. */
  lemma MovePossibleIff(manager: Manager, start: int, first: int, second: int, f: nat)
    requires AllRoomDefined(manager.fields)
    ensures IsMovePossible(PossibleMovesOf(Some(manager), start, first, second), f) <==>
              0 <= start < |manager.fields|
              && IsReachableTarget(manager.fields, manager.player, start, first, second, f)
  {
    var steps := CandidateSteps(first, second);
    var candidates := MovesFor(Some(manager), start, steps);
    var r := PossibleMovesOf(Some(manager), start, first, second);
    assert r == KeepValid(manager, candidates);
    if IsMovePossible(r, f) {
      var i :| 0 <= i < |r| && r[i].destinationField == Some(f);
      assert r[i] in r;
      var m := r[i];
      assert Target(manager.player, start, m.steps) == f;
    }
    if 0 <= start < |manager.fields| && IsReachableTarget(manager.fields, manager.player, start, first, second, f) {
      var s :| s in steps && Target(manager.player, start, s) == f;
      var j :| 0 <= j < |steps| && steps[j] == s;
      var m := candidates[j];
      assert m in candidates && IsValid(manager, m);
      assert m in r;
      var k :| 0 <= k < |r| && r[k] == m;
    }
  }
}

=== FILE: pawns.dfy ===
/** Pawns and player colours (PawnController.cs). */
module Pawns {

  /** The two players; a pawn's colour is the player who owns it. */
  datatype PlayerColor = Red | White

  /** A pawn object. `id` stands for the object's identity, so two pawns are
      the same object exactly when they are equal values. */
  datatype Pawn = Pawn(id: nat, color: PlayerColor)
}

=== FILE: states.dfy ===
/** The game states of GameManager.cs and the player each one belongs to. */
module States {
  import opened Pawns

  datatype GameState = Init | RedPlayerRolls | RedPlayerMoves | WhitePlayerRolls | WhitePlayerMoves

  predicate IsRollState(s: GameState)
  {
    s == RedPlayerRolls || s == WhitePlayerRolls
  }

  predicate IsMovesState(s: GameState)
  {
    s == RedPlayerMoves || s == WhitePlayerMoves
  }

  /** The player ChangeState derives from a state: Red for the two Red
      states, White for every other state, Init included. */
  function PlayerOf(s: GameState): (c: PlayerColor)
    ensures c == Red <==> s in {RedPlayerRolls, RedPlayerMoves}
  {
    if s == RedPlayerMoves || s == RedPlayerRolls then Red else White
  }

  /** The state in which a colour may move. */
  function MovesStateOf(c: PlayerColor): (s: GameState)
    ensures IsMovesState(s) && PlayerOf(s) == c
  {
    if c == Red then RedPlayerMoves else WhitePlayerMoves
  }
}

=== FILE: wrappers.dfy ===
/** Option stands for a C# reference that may be null. */
module Wrappers {

  datatype Option<+T> = None | Some(value: T)
}
